=== FILE: README.md ===
# split_and_tag: a Dafny model of `process.py`

`python_version/process.py` walks the current directory for downloaded
recordings: a `<name>.info.json` descriptor next to a `<name>.opus` audio file.
It writes one tagged track per chapter, or one track for the whole recording
when there are no chapters, under `output/<album>/<title>.opus`. Each track
comes from one `ffmpeg` stream-copy call. A track whose output file already
exists is skipped, so running the script again only fills the gaps.

This project models the script's decision logic as pure functions over an
already-parsed descriptor, and proves what that logic promises:

- `sanitizer.dfy`: `sanitize_metadata`. It applies the regex substitution of
  `\ / : " * ? < > |` by `_` and then `str.strip()`.
- `descriptor.dfy`: the keys the loop reads from the descriptor. An absent key
  is `None`.
- `planner.dfy`: track planning. Chapter mode gives one plan per chapter, with
  floored times and 1-based track numbers. Single mode gives one plan built
  from the fallback chain of keys.
- `decimal.dfy`: Python's `str()` of an `int`, used for `-ss`, `-to` and
  `track=`, together with the decimal reader that undoes it.
- `paths.dfy`: POSIX `os.path.join` and the output path
  `output/<sanitized album>/<sanitized title>.opus`.
- `command.dfy`: the ffmpeg request for one track and its argument vector.
  Chapter mode puts `-ss` before `-i` and `-to` after it. Chapter mode tags
  the raw title and album; single mode tags the sanitized ones. A parser for
  the argument vector shows that the encoding is lossless.
- `driver.dfy`: the loop over recordings. It threads the set of existing
  output files and reports an event per outcome: a missing or invalid-JSON
  descriptor, a missing audio file, a skipped existing target, or an ffmpeg
  invocation.
- `scenarios.dfy`: whole runs on concrete recordings, worked out end to end.

The filesystem enters only as a set of existing paths and a per-recording
"audio file exists" flag. `ffmpeg` is modelled as always succeeding and
creating its output file.

## Notes on the script

- Chapter times are floored with `math.floor` (process.py:45-47), not truncated toward zero. A negative time goes down, `-0.5` to `-1`, so a start time can be negative. Nothing requires the end to lie after the start.
- The descriptor is read before the audio file is checked (process.py:27-38). A recording with both problems is reported as an invalid descriptor.
- Single mode tags `safe_title` and `safe_album`, the sanitized names (process.py:132-134). Chapter mode tags the raw chapter title and album (process.py:84-86).
- A target that already exists is skipped, and the per-track loop goes on with the next chapter (process.py:62-66). In single mode the recording has only one track, so the run goes on with the next recording (process.py:116-118).

## Model

| member | source | states |
|---|---|---|
| Sanitizer.ReplaceForbidden | python_version/process.py:14 | the substitution keeps the length, replaces exactly the nine forbidden characters by `_`, keeps every other character in place, and leaves no forbidden character |
| Sanitizer.TrimStart | python_version/process.py:14 | `lstrip` stops at the first non-whitespace character: everything before it is whitespace |
| Sanitizer.TrimEnd | python_version/process.py:14 | `rstrip` stops after the last non-whitespace character: everything after it is whitespace |
| Sanitizer.Strip | python_version/process.py:14 | `strip()` cuts an all-whitespace prefix and suffix and leaves a string that neither starts nor ends with whitespace |
| Sanitizer.Sanitize | python_version/process.py:13-14 | a sanitized name contains none of the nine characters the substitution replaces and has no whitespace at either end |
| Sanitizer.SanitizeIsTrimOfReplacement | python_version/process.py:14 | the sanitized name is the trim of the one-for-one replacement of the input |
| Sanitizer.TrimIsUnique | python_version/process.py:14 | the trim of a string is unique, so `strip` is fully determined by the trim property |
| Sanitizer.StripKeepsTrimmed | python_version/process.py:14 | `strip` leaves a string without surrounding whitespace unchanged |
| Sanitizer.ReplaceForbiddenKeepsClean | python_version/process.py:14 | the substitution leaves a string without forbidden characters unchanged |
| Sanitizer.SanitizeIdempotent | python_version/process.py:13-14 | sanitizing twice gives the same name as sanitizing once |
| Sanitizer.SanitizeKeepsSafeName | python_version/process.py:13-14 | a name that is already free of forbidden characters and trimmed is its own sanitization |
| Planner.Seconds | python_version/process.py:45-47 | a chapter time becomes the greatest integer not above it, and 0 when the key is absent |
| Planner.ChapterPlan | python_version/process.py:45-51 | a chapter's plan is in chapter mode with the given track number. Its start and end are the greatest integers not above the chapter's times, 0 when a time is absent. Album, artist and title are `title`, `uploader` and the chapter's `title`, else "Unknown Album", "Unknown Artist" and "Unknown Title" |
| Planner.SinglePlan | python_version/process.py:103-107 | the single plan has no range. Its album is `playlist_title`, else `title`, else "Unknown Album". Its artist is `uploader`, else "Unknown Artist". Its title is `title`, else "Unknown Title". Its track is `playlist_index`, else 1 |
| Planner.ChapterPlans | python_version/process.py:44-51 | the `enumerate` loop gives one plan per chapter, in order, numbered consecutively from the first number |
| Planner.PlanTracks | python_version/process.py:40-107 | a non-empty chapter list of length N gives N chapter-mode plans numbered 1..N, with floored times and the `title`, `uploader` and chapter-title fallbacks; otherwise one single-mode plan with album `playlist_title`, else `title`, else "Unknown Album", title `title`, else "Unknown Title", and track `playlist_index`, else 1 |
| Planner.SecondsFloors | python_version/process.py:45-47 | 12.9 s becomes 12, -0.5 s becomes -1, and an absent time becomes 0 |
| Decimal.NatToString | python_version/process.py:90 | the decimal numeral of a natural number: digits only, with a leading zero only for 0 |
| Decimal.IntToString | python_version/process.py:74-78 | `str(n)` starts with `-` exactly when n is negative and is digits after that |
| Decimal.ParseIntOfIntToString | python_version/process.py:74-90 | the decimal reader recovers every integer from `str(n)` |
| Decimal.IntToStringOfParseInt | python_version/process.py:74-90 | the decimal reader accepts only what `str` writes: whatever it reads is written back unchanged |
| Decimal.IntToStringInjective | python_version/process.py:138 | two track numbers give the same `track=` text exactly when they are equal |
| Paths.Join | python_version/process.py:56-60 | POSIX `os.path.join`: an absolute second part replaces the first. Otherwise the result is the two parts with at most one separator added, and nothing is added when the first part is empty or already ends in `/` |
| Paths.JoinSeparates | python_version/process.py:112-114 | joining a relative part keeps the first part in front and the second at the end, with a `/` right before the second whenever the first part is not empty |
| Paths.JoinUnderRoot | python_version/process.py:56-60 | joining `output`, a slash-free album segment and `<title>.opus` gives `output/<album>/<title>.opus`, or `output/<title>.opus` for an empty album |
| Paths.TargetFile | python_version/process.py:53-60 | the output path of a track is `output/`, then the sanitized album and the sanitized title joined by `/`, then `.opus` |
| Paths.SplitTargetFile | python_version/process.py:109-114 | the output path can be split back into the sanitized album and the sanitized title, each sanitized separately |
| Paths.TargetFileCollides | python_version/process.py:53-60 | two tracks share an output file exactly when their sanitized albums and their sanitized titles are equal |
| Paths.TargetFileShape | python_version/process.py:9-10 | every output path lies under `output/` and ends in `.opus` |
| Command.PlanInvocation | python_version/process.py:53-138 | a track's request reads the recording's audio file and keeps the plan's range and track number. It writes the track's output path. Chapter mode tags the raw title and album; single mode tags the sanitized ones. The artist is never sanitized |
| Command.TailArgs | python_version/process.py:79-94 | the 16 arguments that end the vector start with `-c copy` and end with the target path. `ParseTailArgs` reads them back |
| Command.Argv | python_version/process.py:70-95 | the vector is 24 arguments in chapter mode and 20 otherwise. It starts with `ffmpeg -y` and contains `-c copy`. Its last argument is the target path and its fifth-last is `track=` followed by `str` of the track number. In chapter mode it is `-ss start -i input -to end`; in single mode it is `-i input` |
| Command.ParseTailArgs | python_version/process.py:127-142 | the tail arguments are read back into the tags and the output path they were built from |
| Command.TailArgsOfParseTail | python_version/process.py:79-94 | only tail arguments built from some tags and path are read back |
| Command.ParseArgvOfArgv | python_version/process.py:122-143 | every argument vector is read back into the request it encodes, so distinct requests give distinct commands |
| Command.ArgvOfParseArgv | python_version/process.py:70-95 | every vector that is read back is the one built from what it reads as, so the encoding has no second spelling |
| Command.SeekOnlyInChapterMode | python_version/process.py:73-78 | if the input and output paths do not start with `-`, then `-ss` and `-to` appear exactly in chapter mode |
| Driver.InWalkRoot | python_version/process.py:24-25 | a descriptor or audio file found in the walk's top directory `.` has path `./<file>`, and an absolute file name is kept as it is |
| Driver.PlanInvocations | python_version/process.py:44-60 | there is one request per plan, in plan order |
| Driver.TrackEvent | python_version/process.py:62-66 | a track is extracted exactly when its target is not among the existing files; otherwise it is skipped as that target |
| Driver.TrackStepThreaded | python_version/process.py:62-68 | one track step adds at most its own target, and runs ffmpeg only when that target did not exist |
| Driver.RunTracks | python_version/process.py:44-68 | the per-track loop yields exactly one event per track |
| Driver.RunTracksTargets | python_version/process.py:62-68 | after the per-track loop, the existing files are those from before plus the target of every track, skipped or extracted |
| Driver.RunTracksEvents | python_version/process.py:62-66 | each track is skipped or extracted. It is extracted exactly when its target did not exist and no earlier track wrote it, so a chapter-mode skip goes on with the next chapter |
| Driver.RunTracksThreaded | python_version/process.py:97 | the loop is threaded. Every track's target exists afterwards. ffmpeg never writes an existing file and never writes one file twice |
| Driver.RunRecording | python_version/process.py:27-40 | a recording is threaded: a missing or invalid-JSON descriptor or missing audio skips it, otherwise its tracks go through the per-track loop |
| Driver.Run | python_version/process.py:20-147 | the whole run is threaded. The final set is the initial one plus what ffmpeg wrote. No invocation overwrites an existing file, and no two invocations share a target |
| Driver.RunIsOneTrackLoop | python_version/process.py:20-147 | the run over recordings extracts what one per-track loop over all their requests would, because the set of existing files carries across recordings |
| Driver.RunExtractsFirstFresh | python_version/process.py:62-68 | the run extracts exactly the requests whose target neither existed at the start nor belonged to an earlier request, in order |
| Driver.RunCreatesAllTargets | python_version/process.py:116-145 | after the run, the existing files are the initial ones plus every request's target, and nothing else |
| Driver.UnusableRecordingSkipped | python_version/process.py:27-38 | a recording with a missing or invalid-JSON descriptor or missing audio is reported with one event. It asks for no extraction, and the run continues with the same set of files |
| Driver.AudioPathIsPathArg | python_version/process.py:25 | the audio path under the walk root `.` never starts with `-` |
| Driver.PlanCommand | python_version/process.py:70-143 | a track's command has `-ss` and `-to` exactly when it is a chapter-mode track, and tags `track=` with `str` of its number |
| Driver.TrackCommand | python_version/process.py:44-51 | the command of track k has `-ss`/`-to` exactly when the descriptor has chapters. In chapter mode it tags `track=` with k+1 |
| Driver.RecordingCommands | python_version/process.py:70-143 | every command a recording asks for starts with `ffmpeg -y`, copies the stream and ends with its target. It has `-ss`/`-to` exactly when the recording has chapters. In chapter mode it tags the 1-based chapter index |
| Scenarios.PaddedNameStripped | python_version/process.py:14 | "A " sanitizes to "A" |
| Scenarios.PaddedTarget | python_version/process.py:53-60 | a chapter titled "A " writes the same file as one titled "A" |
| Scenarios.PodPlans | python_version/process.py:40-51 | two chapters at 0-10 s and 10-20 s give tracks 1 and 2 with those ranges |
| Scenarios.FirstChapterCommand | python_version/process.py:70-95 | the full 24-argument command of the first chapter |
| Scenarios.TwoChapters | python_version/process.py:20-147 | a first run over a two-chapter recording extracts both chapters in order and creates both files |
| Scenarios.RerunSkipsExisting | python_version/process.py:62-66 | a rerun after the first chapter was written skips it and extracts the second |
| Scenarios.CollidingChapterTitles | python_version/process.py:53-66 | of two chapters titled "A" and "A ", only the first is extracted. The second is skipped as existing, and one file is written |
| Scenarios.SoloPlans | python_version/process.py:101-107 | a descriptor without chapters, uploader or playlist gives one track: album from the title, "Unknown Artist", track 1 |
| Scenarios.SoloCommand | python_version/process.py:122-143 | the full 20-argument single-mode command, without `-ss` or `-to` |
| Scenarios.SoloRun | python_version/process.py:101-145 | the recording without chapters is extracted to one file |
| Scenarios.BadRecordingsAreSkipped | python_version/process.py:27-38 | an invalid-JSON descriptor and a missing audio file are each reported, and the run goes on to extract the next recording |

## Left out

- The directory walk (`os.walk` and the `break` after the top directory) is not modelled. The run takes the discovered recordings as a sequence in discovery order, with the walk root fixed at `.`.
- Opening files, JSON decoding and `float()` are not modelled. The descriptor arrives parsed, with `None` for an absent key. A missing file or invalid JSON arrives as a missing descriptor: these are the two errors the script catches (process.py:30). A JSON `null` or a value of another type than the model gives the key cannot be represented. Where the script only formats such a value, it writes it the way `str` writes it (`track=2.0`, `track=True`, `track=03`, `artist=None`). A non-string title or album raises in the substitution of `sanitize_metadata` (process.py:14), and the run aborts. A time that `float()` cannot convert, such as `"abc"`, a list or `null`, raises too. A numeric-string or boolean time is converted and floored: `"12.5"` gives 12 and `true` gives 1. A descriptor that is valid JSON but not an object (a list, string, number or `null`), or a chapter that is not an object, makes `"chapters" in data`, `data["chapters"]` or `.get` raise `TypeError` or `AttributeError` (process.py:40, 45-50, 103-107). That is outside the try at process.py:27-34, so the run aborts.
- Other read errors are not modelled. Examples are a descriptor that exists but cannot be opened (`PermissionError`, `IsADirectoryError`) and one that is not valid UTF-8 (`UnicodeDecodeError`). The script does not catch them, so they abort the whole run, like a failing `subprocess.run`.
- Chapter times are exact finite reals, not IEEE doubles, so rounding in `float()` is not modelled. Neither are non-finite or out-of-range times. `json.load` accepts `NaN`, `Infinity` and `-Infinity`, and reads a literal such as `1e400` as infinity. `math.floor` then raises `ValueError` for NaN and `OverflowError` for an infinity, and `float()` of a JSON integer beyond the double range raises `OverflowError`. The try at process.py:27-34 wraps only `json.load`, so any of these aborts the whole run.
- A failing `subprocess.run` is not modelled. With `check=True` it aborts the whole run. The model treats every invocation as succeeding and creating its target.
- `print` is not modelled. The warnings, skip notices and completion notices appear as the kinds of the events. The "Processing chapters for" notice (process.py:41) has no event.
- `os.makedirs(..., exist_ok=True)` (process.py:68, 120) and `subprocess.run` are not modelled as failing. Any exception either raises aborts the whole run. `os.makedirs` raises `FileExistsError` when the album directory's path already exists as a file. For example, a track with an empty album writes `output/X.opus`, and a later album that sanitizes to `X.opus` then fails. It raises `OSError` when a sanitized album is longer than the filesystem's 255-byte name limit; a 100-character CJK title is already 300 bytes in UTF-8. A `\u0000` in a title, album or uploader makes `os.makedirs` or `subprocess.run` raise `ValueError` (embedded null byte). The set of existing paths knows nothing of files, directories, name lengths or null bytes, so the model extracts all of these tracks.
- Path aliasing is not modelled. The set of existing files is keyed by path string, so an album that sanitizes to `.` or `..`, a case-insensitive filesystem, or a symbolic link is not seen as the same file.
- Sanitizer.Strip: whitespace is the fixed set for which Python's `str.isspace()` holds: U+0009-U+000D, U+001C-U+0020, U+0085, U+00A0, U+1680, U+2000-U+200A, U+2028, U+2029, U+202F, U+205F and U+3000. It is fixed in `IsSpace` rather than derived from the Unicode database.
- The Windows form of `os.path.join` is not modelled, only the two-argument POSIX one.

=== FILE: command.dfy ===
/** The ffmpeg invocation for one track: the structured request the loop
    builds and the argument vector it hands to `subprocess.run`
    (python_version/process.py:53-60, 70-95, 109-114, 122-143). */
module Command {
  import opened Wrappers
  import opened Sanitizer
  import opened Decimal
  import opened Paths
  import opened Planner

  /** The four tags written with `-metadata`. */
  datatype Tags = Tags(title: string, album: string, artist: string, track: int)

  /** One extraction: read `input`, optionally cut to `range`, tag, write `output`. */
  datatype Invocation = Invocation(input: string, range: Option<Range>, tags: Tags, output: string)

  /** The request for one planned track of the recording whose audio is at
      `audio`. Chapter mode tags the raw title and album, single mode the
      sanitized ones; the artist is never sanitized. */
  function PlanInvocation(audio: string, plan: TrackPlan): (inv: Invocation)
    ensures inv.input == audio && inv.range == plan.range && inv.tags.track == plan.track
    ensures inv.output == TargetFile(plan.album, plan.title)
    ensures inv.tags.artist == plan.artist
    ensures plan.IsChaptered() ==> inv.tags.title == plan.title && inv.tags.album == plan.album
    ensures !plan.IsChaptered() ==> inv.tags.title == Sanitize(plan.title) && inv.tags.album == Sanitize(plan.album)
  {
    var safeAlbum := Sanitize(plan.album);
    var safeTitle := Sanitize(plan.title);
    var tags :=
      if plan.IsChaptered() then Tags(plan.title, plan.album, plan.artist, plan.track)
      else Tags(safeTitle, safeAlbum, plan.artist, plan.track);
    Invocation(audio, plan.range, tags, Join(Join(OutputDir, safeAlbum), safeTitle + "." + OutputFormat))
  }

  /** The 16 arguments that end the vector: stream copy, ID3v2.3 tags, quiet, output.
      `ParseTailArgs` reads them back into the tags and path they carry. */
  function TailArgs(tags: Tags, output: string): (a: seq<string>)
    ensures |a| == 16
    ensures a[..2] == ["-c", "copy"] && a[15] == output
  {
    [ "-c", "copy",
      "-id3v2_version", "3",
      "-metadata", "title=" + tags.title,
      "-metadata", "album=" + tags.album,
      "-metadata", "artist=" + tags.artist,
      "-metadata", "track=" + IntToString(tags.track),
      "-loglevel", "quiet",
      "-nostats",
      output ]
  }

  /** The `cmd` list. In chapter mode `-ss start` precedes `-i` (an input seek)
      and `-to end` follows it (an output cut). */
  function Argv(inv: Invocation): (a: seq<string>)
    ensures |a| == if inv.range.Some? then 24 else 20
    ensures a[..2] == ["ffmpeg", "-y"]
    ensures a[|a| - 1] == inv.output
    ensures a[|a| - 16..|a| - 14] == ["-c", "copy"]
    ensures a[|a| - 5] == "track=" + IntToString(inv.tags.track)
    ensures inv.range.Some? ==>
      a[2..8] == ["-ss", IntToString(inv.range.value.startSec), "-i", inv.input,
                  "-to", IntToString(inv.range.value.endSec)]
    ensures inv.range.None? ==> a[2..4] == ["-i", inv.input]
  {
    var head :=
      match inv.range
      case Some(r) => ["ffmpeg", "-y", "-ss", IntToString(r.startSec), "-i", inv.input, "-to", IntToString(r.endSec)]
      case None => ["ffmpeg", "-y", "-i", inv.input];
    head + TailArgs(inv.tags, inv.output)
  }

  /** `s` with `prefix` removed, when it starts with it. */
  function DropPrefix(prefix: string, s: string): (r: Option<string>)
    ensures r.Some? <==> |s| >= |prefix| && s[..|prefix|] == prefix
    ensures r.Some? ==> s == prefix + r.value
  {
    if |s| >= |prefix| && s[..|prefix|] == prefix then Some(s[|prefix|..]) else None
  }

  /** Reads the tail arguments back into tags and an output path. */
  function ParseTail(a: seq<string>): Option<(Tags, string)>
    requires |a| == 16
  {
    if a[0] == "-c" && a[1] == "copy" && a[2] == "-id3v2_version" && a[3] == "3"
      && a[4] == "-metadata" && a[6] == "-metadata" && a[8] == "-metadata" && a[10] == "-metadata"
      && a[12] == "-loglevel" && a[13] == "quiet" && a[14] == "-nostats"
    then
      match (DropPrefix("title=", a[5]), DropPrefix("album=", a[7]), DropPrefix("artist=", a[9]), DropPrefix("track=", a[11]))
      case (Some(title), Some(album), Some(artist), Some(track)) =>
        (match ParseInt(track)
         case Some(n) => Some((Tags(title, album, artist, n), a[15]))
         case None => None)
      case _ => None
    else None
  }

  /** Reads an argument vector back into the invocation it encodes. */
  function ParseArgv(a: seq<string>): Option<Invocation> {
    if |a| == 24 && a[0] == "ffmpeg" && a[1] == "-y" && a[2] == "-ss" && a[4] == "-i" && a[6] == "-to" then
      match (ParseInt(a[3]), ParseInt(a[7]), ParseTail(a[8..]))
      case (Some(s), Some(e), Some((tags, output))) => Some(Invocation(a[5], Some(Range(s, e)), tags, output))
      case _ => None
    else if |a| == 20 && a[0] == "ffmpeg" && a[1] == "-y" && a[2] == "-i" then
      match ParseTail(a[4..])
      case Some((tags, output)) => Some(Invocation(a[3], None, tags, output))
      case None => None
    else None
  }

  /** A prefix put in front of a value comes off again. */
  lemma DropPrefixOfConcat(prefix: string, v: string)
    ensures DropPrefix(prefix, prefix + v) == Some(v)
  {
    assert (prefix + v)[..|prefix|] == prefix;
    assert (prefix + v)[|prefix|..] == v;
  }

  /** The tail arguments are read back. */
  lemma ParseTailArgs(tags: Tags, output: string)
    ensures ParseTail(TailArgs(tags, output)) == Some((tags, output))
  {
    DropPrefixOfConcat("title=", tags.title);
    DropPrefixOfConcat("album=", tags.album);
    DropPrefixOfConcat("artist=", tags.artist);
    DropPrefixOfConcat("track=", IntToString(tags.track));
    ParseIntOfIntToString(tags.track);
  }

  /** Every argument vector is read back into the invocation it was built from. */
  lemma ParseArgvOfArgv(inv: Invocation)
    ensures ParseArgv(Argv(inv)) == Some(inv)
  {
    var a := Argv(inv);
    ParseTailArgs(inv.tags, inv.output);
    match inv.range
    case Some(r) =>
      assert a[8..] == TailArgs(inv.tags, inv.output);
      ParseIntOfIntToString(r.startSec);
      ParseIntOfIntToString(r.endSec);
    case None =>
      assert a[4..] == TailArgs(inv.tags, inv.output);
  }

  /** Only tail arguments built by `TailArgs` are read back. */
  lemma TailArgsOfParseTail(t: seq<string>)
    requires |t| == 16 && ParseTail(t).Some?
    ensures TailArgs(ParseTail(t).value.0, ParseTail(t).value.1) == t
  {
    var (tags, output) := ParseTail(t).value;
    IntToStringOfParseInt(DropPrefix("track=", t[11]).value);
    var u := TailArgs(tags, output);
    assert forall k :: 0 <= k < 16 ==> u[k] == t[k];
  }

  /** Only argument vectors built by `Argv` are read back: the encoding has no
      second spelling of any invocation. */
  lemma ArgvOfParseArgv(a: seq<string>)
    requires ParseArgv(a).Some?
    ensures Argv(ParseArgv(a).value) == a
  {
    if |a| == 24 {
      ArgvOfParseArgvSeek(a);
    } else {
      ArgvOfParseArgvWhole(a);
    }
  }

  /** `ArgvOfParseArgv` for a chapter-mode vector. */
  lemma ArgvOfParseArgvSeek(a: seq<string>)
    requires ParseArgv(a).Some? && |a| == 24
    ensures Argv(ParseArgv(a).value) == a
  {
    var inv := ParseArgv(a).value;
    var b := Argv(inv);
    TailArgsOfParseTail(a[8..]);
    IntToStringOfParseInt(a[3]);
    IntToStringOfParseInt(a[7]);
    assert b[..8] == a[..8];
    assert b[8..] == a[8..];
    assert b == b[..8] + b[8..] && a == a[..8] + a[8..];
  }

  /** `ArgvOfParseArgv` for a single-mode vector. */
  lemma ArgvOfParseArgvWhole(a: seq<string>)
    requires ParseArgv(a).Some? && |a| != 24
    ensures Argv(ParseArgv(a).value) == a
  {
    var inv := ParseArgv(a).value;
    var b := Argv(inv);
    TailArgsOfParseTail(a[4..]);
    assert b[..4] == a[..4];
    assert b[4..] == a[4..];
    assert b == b[..4] + b[4..] && a == a[..4] + a[4..];
  }

  /** A path argument cannot be mistaken for an option. */
  predicate IsPathArg(s: string) {
    |s| >= 1 && s[0] != '-'
  }

  /** No printed integer reads as the option `-ss` or `-to`. */
  lemma NumberIsNotSeek(n: int)
    ensures IntToString(n) != "-ss" && IntToString(n) != "-to"
  {
    var s := IntToString(n);
    if |s| == 3 { assert IsDigit(s[1]); }
  }

  /** A single-mode vector holds neither `-ss` nor `-to`. */
  lemma NoSeekInSingleMode(inv: Invocation)
    requires IsPathArg(inv.input) && IsPathArg(inv.output) && inv.range.None?
    ensures "-ss" !in Argv(inv) && "-to" !in Argv(inv)
  {
    var a := Argv(inv);
    NumberIsNotSeek(inv.tags.track);
    assert a == ["ffmpeg", "-y", "-i", inv.input] + TailArgs(inv.tags, inv.output);
    forall k | 0 <= k < |a| ensures a[k] != "-ss" && a[k] != "-to" {
      if 5 <= k <= 13 && k % 2 == 1 { assert a[k][0] != '-'; }
    }
  }

  /** With path arguments that are not options, `-ss` and `-to` appear in the
      argument vector exactly in chapter mode. */
  lemma SeekOnlyInChapterMode(inv: Invocation)
    requires IsPathArg(inv.input) && IsPathArg(inv.output)
    ensures "-ss" in Argv(inv) <==> inv.range.Some?
    ensures "-to" in Argv(inv) <==> inv.range.Some?
  {
    if inv.range.None? {
      NoSeekInSingleMode(inv);
    } else {
      var a := Argv(inv);
      assert a[2] == "-ss" && a[6] == "-to";
    }
  }
}

=== FILE: decimal.dfy ===
/** Python's `str()` of an integer, used for the `-ss`/`-to` seconds and the
    `track=` tag (python_version/process.py:74, 78, 90, 138), and the decimal
    reader that undoes it. */
module Decimal {
  import opened Wrappers

  predicate IsDigit(c: char) {
    '0' <= c <= '9'
  }

  function DigitChar(d: nat): (c: char)
    requires d < 10
    ensures IsDigit(c)
  {
    ('0' as int + d) as char
  }

  function DigitValue(c: char): (d: nat)
    requires IsDigit(c)
    ensures d < 10 && DigitChar(d) == c
  {
    (c as int - '0' as int) as nat
  }

  /** The decimal numeral of `n`: digits only, most significant first, and no
      leading zero except in "0" itself. */
  function NatToString(n: nat): (r: string)
    ensures IsNumeral(r)
    ensures r[0] == '0' <==> n == 0
    decreases n
  {
    if n < 10 then [DigitChar(n)] else NatToString(n / 10) + [DigitChar(n % 10)]
  }

  /** `str(n)` for a Python `int`: a minus sign before the numeral of `-n`
      exactly when `n` is negative. */
  function IntToString(n: int): (r: string)
    ensures |r| >= 1
    ensures (r[0] == '-') <==> n < 0
    ensures forall k :: 0 < k < |r| ==> IsDigit(r[k])
  {
    if n < 0 then "-" + NatToString(-n) else NatToString(n)
  }

  /** The value of a string of digits, most significant first. */
  function DigitsValue(s: string): (v: nat)
    requires forall k :: 0 <= k < |s| ==> IsDigit(s[k])
    decreases |s|
  {
    if s == [] then 0 else DigitsValue(s[..|s| - 1]) * 10 + DigitValue(s[|s| - 1])
  }

  /** A decimal numeral as `str` writes it: non-empty digits with no leading
      zero unless the numeral is "0". */
  predicate IsNumeral(s: string) {
    |s| >= 1 && (forall k :: 0 <= k < |s| ==> IsDigit(s[k])) && (s[0] == '0' ==> |s| == 1)
  }

  /** Reads a numeral as `str` writes it; anything else is rejected. */
  function ParseNat(s: string): (r: Option<nat>)
    ensures r.Some? <==> IsNumeral(s)
  {
    if IsNumeral(s) then Some(DigitsValue(s)) else None
  }

  /** Reads what `str` writes for an integer: a numeral, with a minus sign
      before it when it is not zero. */
  function ParseInt(s: string): (r: Option<int>)
  {
    if |s| >= 1 && s[0] == '-' then
      match ParseNat(s[1..])
      case Some(v) => if v == 0 then None else Some(0 - v as int)
      case None => None
    else
      match ParseNat(s)
      case Some(v) => Some(v)
      case None => None
  }

  /** Reading back a numeral gives the number it was written from. */
  lemma {:induction false} DigitsValueOfNatToString(n: nat)
    ensures DigitsValue(NatToString(n)) == n
    decreases n
  {
    var s := NatToString(n);
    if n < 10 {
      assert s[..|s| - 1] == [];
    } else {
      DigitsValueOfNatToString(n / 10);
      assert s[..|s| - 1] == NatToString(n / 10);
    }
  }

  /** `str` is undone by the decimal reader, for every integer. */
  lemma ParseIntOfIntToString(n: int)
    ensures ParseInt(IntToString(n)) == Some(n)
  {
    if n < 0 {
      DigitsValueOfNatToString(-n);
      assert IntToString(n)[1..] == NatToString(-n);
    } else {
      DigitsValueOfNatToString(n);
    }
  }

  /** A numeral with a non-zero first digit has a non-zero value. */
  lemma {:induction false} DigitsValuePositive(s: string)
    requires IsNumeral(s) && s[0] != '0'
    ensures DigitsValue(s) >= 1
    decreases |s|
  {
    if |s| > 1 {
      var p := s[..|s| - 1];
      assert p[0] == s[0];
      DigitsValuePositive(p);
    }
  }

  /** Writing out the value of a numeral gives the numeral back. */
  lemma {:induction false} NatToStringOfDigitsValue(s: string)
    requires IsNumeral(s)
    ensures NatToString(DigitsValue(s)) == s
    decreases |s|
  {
    var p := s[..|s| - 1];
    if |s| > 1 {
      assert p[0] == s[0];
      NatToStringOfDigitsValue(p);
      DigitsValuePositive(p);
      assert s == p + [s[|s| - 1]];
    } else {
      assert p == [];
    }
  }

  /** The decimal reader accepts exactly what `str` writes: whatever it reads
      is written back unchanged. */
  lemma IntToStringOfParseInt(s: string)
    requires ParseInt(s).Some?
    ensures IntToString(ParseInt(s).value) == s
  {
    if |s| >= 1 && s[0] == '-' {
      NatToStringOfDigitsValue(s[1..]);
      assert s == "-" + s[1..];
    } else {
      NatToStringOfDigitsValue(s);
    }
  }

  /** Two integers print the same exactly when they are equal. */
  lemma IntToStringInjective(m: int, n: int)
    ensures IntToString(m) == IntToString(n) <==> m == n
  {
    ParseIntOfIntToString(m);
    ParseIntOfIntToString(n);
  }
}

=== FILE: descriptor.dfy ===
/** The sidecar `.info.json` descriptor of one recording, as the keys the
    processing loop reads from it (python_version/process.py:40-50, 103-107).
    Each field is `None` when its key is absent from the JSON object. */
module Descriptor {
  import opened Wrappers

  /** One element of the `chapters` list. Times are the JSON numbers, read as
      exact reals. */
  datatype Chapter = Chapter(
    startTime: Option<real>,
    endTime: Option<real>,
    title: Option<string>)

  datatype Descriptor = Descriptor(
    title: Option<string>,
    uploader: Option<string>,
    playlistTitle: Option<string>,
    playlistIndex: Option<int>,
    chapters: Option<seq<Chapter>>)
  {
    /** `"chapters" in data and data["chapters"]`: the key is there and the list is non-empty. */
    predicate HasChapters() {
      chapters.Some? && |chapters.value| > 0
    }
  }
}

=== FILE: driver.dfy ===
/** The processing loop: one pass over the discovered recordings, threading
    the set of output files that exist (python_version/process.py:20-147). */
module Driver {
  import opened Wrappers
  import opened Paths
  import opened Descriptor
  import opened Planner
  import opened Command

  /** A discovered `<name>.info.json`: the parse of the descriptor (`None` when
      the file is missing or is not valid JSON) and whether `<name>.opus` is a
      file. */
  datatype Recording = Recording(name: string, descriptor: Option<Descriptor>, audioExists: bool)

  /** What the loop did with a recording or a track: the outcomes its
      warnings, skip notices and completion notices report. The notice that a
      recording's chapters are being processed has no event of its own. */
  datatype Event =
    | InvalidDescriptor(jsonPath: string)
    | MissingAudio(name: string)
    | SkippedExisting(target: string)
    | Extracted(inv: Invocation)

  /** The events so far and the output files that exist now. */
  datatype Step = Step(events: seq<Event>, existing: set<string>)

  /** `os.path.join(root, file)` with the walk's top directory ".": the file
      in the current directory, or the file itself when it is an absolute path. */
  function InWalkRoot(file: string): (r: string)
    ensures !IsAbsolute(file) ==> r == "./" + file
    ensures IsAbsolute(file) ==> r == file
  {
    assert "./" + file == "." + "/" + file;
    Join(".", file)
  }

  /** `os.path.join(root, f"{name}.info.json")`. */
  function JsonPath(name: string): string {
    InWalkRoot(name + ".info.json")
  }

  /** `os.path.join(root, f"{name}.opus")`. */
  function AudioPath(name: string): string {
    InWalkRoot(name + ".opus")
  }

  /** The ffmpeg invocations among the events, in order. */
  function Extractions(events: seq<Event>): (r: seq<Invocation>)
    ensures |r| <= |events|
    decreases |events|
  {
    if events == [] then []
    else (if events[0].Extracted? then [events[0].inv] else []) + Extractions(events[1..])
  }

  /** The output files of some invocations. */
  function Outputs(invs: seq<Invocation>): set<string> {
    set k | 0 <= k < |invs| :: invs[k].output
  }

  /** No two invocations write the same file. */
  predicate DistinctOutputs(invs: seq<Invocation>) {
    forall i, j :: 0 <= i < j < |invs| ==> invs[i].output != invs[j].output
  }

  /** None of the invocations writes a file of `existing`. */
  predicate AllFresh(invs: seq<Invocation>, existing: set<string>) {
    forall k :: 0 <= k < |invs| ==> invs[k].output !in existing
  }

  /** `s` continues a run that started with the output files `existing`: the
      files that exist now are those plus the ones ffmpeg wrote, ffmpeg never
      wrote a file that existed when it started, and never wrote one file twice. */
  ghost predicate Threaded(existing: set<string>, s: Step) {
    var x := Extractions(s.events);
    s.existing == existing + Outputs(x) && AllFresh(x, existing) && DistinctOutputs(x)
  }

  lemma {:induction false} ExtractionsAppend(a: seq<Event>, b: seq<Event>)
    ensures Extractions(a + b) == Extractions(a) + Extractions(b)
    decreases |a|
  {
    if a != [] {
      var h := if a[0].Extracted? then [a[0].inv] else [];
      assert (a + b)[0] == a[0];
      assert (a + b)[1..] == a[1..] + b;
      ExtractionsAppend(a[1..], b);
      assert h + (Extractions(a[1..]) + Extractions(b)) == (h + Extractions(a[1..])) + Extractions(b);
    } else {
      assert a + b == b;
    }
  }

  lemma OutputsAppend(a: seq<Invocation>, b: seq<Invocation>)
    ensures Outputs(a + b) == Outputs(a) + Outputs(b)
  {
    assert forall k :: 0 <= k < |a| ==> (a + b)[k] == a[k];
    assert forall k :: 0 <= k < |b| ==> (a + b)[|a| + k] == b[k];
  }

  lemma AllFreshAppend(a: seq<Invocation>, b: seq<Invocation>, existing: set<string>)
    requires AllFresh(a, existing) && AllFresh(b, existing + Outputs(a))
    ensures AllFresh(a + b, existing)
  {
    forall k | 0 <= k < |a + b| ensures (a + b)[k].output !in existing {
      if k < |a| { assert (a + b)[k] == a[k]; } else { assert (a + b)[k] == b[k - |a|]; }
    }
  }

  lemma DistinctAppend(a: seq<Invocation>, b: seq<Invocation>)
    requires DistinctOutputs(a) && DistinctOutputs(b) && AllFresh(b, Outputs(a))
    ensures DistinctOutputs(a + b)
  {
    var x := a + b;
    forall i, j | 0 <= i < j < |x| ensures x[i].output != x[j].output {
      if j < |a| {
        assert x[i] == a[i] && x[j] == a[j];
      } else if i >= |a| {
        assert x[i] == b[i - |a|] && x[j] == b[j - |a|];
      } else {
        assert x[i] == a[i] && x[j] == b[j - |a|];
        assert a[i].output in Outputs(a);
      }
    }
  }

  /** Two consecutive stretches of a run, each threaded from where the
      previous one left the set of files, make one threaded stretch. */
  lemma ThreadedAppend(existing: set<string>, s1: Step, s2: Step)
    requires Threaded(existing, s1) && Threaded(s1.existing, s2)
    ensures Threaded(existing, Step(s1.events + s2.events, s2.existing))
  {
    ExtractionsAppend(s1.events, s2.events);
    var a, b := Extractions(s1.events), Extractions(s2.events);
    OutputsAppend(a, b);
    AllFreshAppend(a, b, existing);
    assert AllFresh(b, Outputs(a));
    DistinctAppend(a, b);
  }

  /** The invocation of every planned track, in plan order. */
  function PlanInvocations(audio: string, plans: seq<TrackPlan>): (r: seq<Invocation>)
    ensures |r| == |plans|
    ensures forall i :: 0 <= i < |plans| ==> r[i] == PlanInvocation(audio, plans[i])
  {
    seq(|plans|, i requires 0 <= i < |plans| => PlanInvocation(audio, plans[i]))
  }

  /** What the loop does with one track: skip it when its target exists,
      otherwise run ffmpeg on it. ffmpeg runs exactly when the target is new. */
  function TrackEvent(inv: Invocation, existing: set<string>): (e: Event)
    ensures e == Extracted(inv) <==> inv.output !in existing
    ensures !e.Extracted? ==> e == SkippedExisting(inv.output)
  {
    if inv.output in existing then SkippedExisting(inv.output) else Extracted(inv)
  }

  /** One track step is threaded, and its target exists afterwards: the set
      grows by at most that target, and only when ffmpeg wrote it. */
  lemma TrackStepThreaded(inv: Invocation, existing: set<string>)
    ensures Threaded(existing, Step([TrackEvent(inv, existing)], existing + {inv.output}))
  {
    if inv.output in existing {
      assert Extractions([SkippedExisting(inv.output)]) == [];
      assert existing + {inv.output} == existing;
    } else {
      assert Extractions([Extracted(inv)]) == [inv];
      assert Outputs([inv]) == {inv.output} by {
        assert [inv][0].output == inv.output;
      }
    }
  }

  /** The targets of a non-empty list are its first target and those of the rest. */
  lemma OutputsCons(invs: seq<Invocation>)
    requires invs != []
    ensures Outputs(invs) == {invs[0].output} + Outputs(invs[1..])
  {
    OutputsAppend([invs[0]], invs[1..]);
    assert [invs[0]] + invs[1..] == invs;
    assert Outputs([invs[0]]) == {invs[0].output} by {
      assert [invs[0]][0] == invs[0];
    }
  }

  /** Track `i` is the first of `invs` to write its target, and that target
      did not exist when the loop started. */
  ghost predicate FirstFreshAt(invs: seq<Invocation>, existing: set<string>, i: int)
    requires 0 <= i < |invs|
  {
    invs[i].output !in existing && forall j :: 0 <= j < i ==> invs[j].output != invs[i].output
  }

  /** Dropping the first track and adding its target to the set keeps every
      later track's standing. */
  lemma FirstFreshShift(invs: seq<Invocation>, existing: set<string>)
    requires |invs| > 0
    ensures forall i :: 0 < i < |invs| ==>
      (FirstFreshAt(invs[1..], existing + {invs[0].output}, i - 1) <==> FirstFreshAt(invs, existing, i))
  {
    forall i | 0 < i < |invs|
      ensures FirstFreshAt(invs[1..], existing + {invs[0].output}, i - 1) <==> FirstFreshAt(invs, existing, i)
    {
      var t := invs[1..];
      assert t[i - 1] == invs[i];
      assert forall j :: 0 <= j < i - 1 ==> t[j] == invs[j + 1];
      if FirstFreshAt(invs, existing, i) {
        forall j | 0 <= j < i - 1 ensures t[j].output != t[i - 1].output {
          assert t[j] == invs[j + 1];
        }
      }
      if FirstFreshAt(t, existing + {invs[0].output}, i - 1) {
        forall j | 0 <= j < i ensures invs[j].output != invs[i].output {
          if j > 0 { assert invs[j] == t[j - 1]; }
        }
      }
    }
  }

  /** The per-track loop of one recording: a track whose target exists is
      skipped and the loop goes on with the next track; otherwise ffmpeg is
      run and its target exists from then on (python_version/process.py:62-68, 97, 116-120, 145). */
  function RunTracks(invs: seq<Invocation>, existing: set<string>): (s: Step)
    ensures |s.events| == |invs|
    decreases |invs|
  {
    if invs == [] then Step([], existing)
    else
      var rest := RunTracks(invs[1..], existing + {invs[0].output});
      Step([TrackEvent(invs[0], existing)] + rest.events, rest.existing)
  }

  /** After the per-track loop, the files that exist are those that existed
      before plus the target of every track, skipped or extracted. */
  lemma {:induction false} RunTracksTargets(invs: seq<Invocation>, existing: set<string>)
    ensures RunTracks(invs, existing).existing == existing + Outputs(invs)
    decreases |invs|
  {
    if invs == [] {
      assert Outputs([]) == {};
    } else {
      OutputsCons(invs);
      RunTracksTargets(invs[1..], existing + {invs[0].output});
    }
  }

  /** Each track of the per-track loop yields one event, in order: a skip for
      its target or its extraction, and it is extracted exactly when it is the
      first track to write its target and that target did not exist. */
  lemma {:induction false} RunTracksEvents(invs: seq<Invocation>, existing: set<string>)
    ensures var s := RunTracks(invs, existing);
      forall i :: 0 <= i < |invs| ==>
        (s.events[i] == SkippedExisting(invs[i].output) || s.events[i] == Extracted(invs[i]))
        && (s.events[i] == Extracted(invs[i]) <==> FirstFreshAt(invs, existing, i))
    decreases |invs|
  {
    if invs != [] {
      var inv := invs[0];
      var next := existing + {inv.output};
      RunTracksEvents(invs[1..], next);
      FirstFreshShift(invs, existing);
      var s := RunTracks(invs, existing);
      var rest := RunTracks(invs[1..], next);
      assert forall i :: 0 < i < |invs| ==> s.events[i] == rest.events[i - 1] && invs[1..][i - 1] == invs[i];
    }
  }

  /** The per-track loop is threaded, and every track's target exists after it. */
  lemma {:induction false} RunTracksThreaded(invs: seq<Invocation>, existing: set<string>)
    ensures Threaded(existing, RunTracks(invs, existing))
    ensures forall i :: 0 <= i < |invs| ==> invs[i].output in RunTracks(invs, existing).existing
    decreases |invs|
  {
    if invs == [] {
      assert Extractions([]) == [];
    } else {
      var inv := invs[0];
      TrackStepThreaded(inv, existing);
      var head := Step([TrackEvent(inv, existing)], existing + {inv.output});
      RunTracksThreaded(invs[1..], head.existing);
      var rest := RunTracks(invs[1..], head.existing);
      ThreadedAppend(existing, head, rest);
      assert forall i :: 0 < i < |invs| ==> invs[1..][i - 1] == invs[i];
    }
  }

  /** One discovered recording: a missing or invalid-JSON descriptor or a missing audio
      file skips it; otherwise every planned track goes through the per-track
      loop (python_version/process.py:27-40, 101). */
  function RunRecording(rec: Recording, existing: set<string>): (s: Step)
    ensures Threaded(existing, s)
  {
    match rec.descriptor
    case None => Step([InvalidDescriptor(JsonPath(rec.name))], existing)
    case Some(d) =>
      if !rec.audioExists then Step([MissingAudio(rec.name)], existing)
      else
        var invs := PlanInvocations(AudioPath(rec.name), PlanTracks(d));
        RunTracksThreaded(invs, existing);
        RunTracks(invs, existing)
  }

  /** The whole run over the recordings in discovery order. */
  function Run(recs: seq<Recording>, existing: set<string>): (s: Step)
    ensures Threaded(existing, s)
    decreases |recs|
  {
    if recs == [] then Step([], existing)
    else
      var first := RunRecording(recs[0], existing);
      var rest := Run(recs[1..], first.existing);
      ThreadedAppend(existing, first, rest);
      Step(first.events + rest.events, rest.existing)
  }

  /** The invocations a recording asks for: none when it is skipped, one per
      planned track otherwise. */
  function RecordingInvocations(rec: Recording): seq<Invocation> {
    match rec.descriptor
    case None => []
    case Some(d) => if !rec.audioExists then [] else PlanInvocations(AudioPath(rec.name), PlanTracks(d))
  }

  /** The invocations all recordings ask for, in processing order. */
  function Candidates(recs: seq<Recording>): seq<Invocation>
    decreases |recs|
  {
    if recs == [] then [] else RecordingInvocations(recs[0]) + Candidates(recs[1..])
  }

  /** The candidates at first-fresh positions among the first `n`, in order:
      the reference against which the run is checked. */
  ghost function FirstFreshPrefix(cs: seq<Invocation>, existing: set<string>, n: nat): seq<Invocation>
    requires n <= |cs|
  {
    if n == 0 then []
    else FirstFreshPrefix(cs, existing, n - 1) + (if FirstFreshAt(cs, existing, n - 1) then [cs[n - 1]] else [])
  }

  /** The per-track loop over two lists is the loop over the first followed by
      the loop over the second from the set the first left. */
  lemma {:induction false} RunTracksAppend(a: seq<Invocation>, b: seq<Invocation>, existing: set<string>)
    ensures var ra := RunTracks(a, existing);
      var rb := RunTracks(b, ra.existing);
      RunTracks(a + b, existing) == Step(ra.events + rb.events, rb.existing)
    decreases |a|
  {
    if a != [] {
      var next := existing + {a[0].output};
      var ev := [TrackEvent(a[0], existing)];
      var r1 := RunTracks(a[1..], next);
      var r2 := RunTracks(b, r1.existing);
      assert (a + b)[0] == a[0] && (a + b)[1..] == a[1..] + b;
      RunTracksAppend(a[1..], b, next);
      assert ev + (r1.events + r2.events) == (ev + r1.events) + r2.events;
    } else {
      assert a + b == b;
    }
  }

  /** The extractions of events that follow the first-fresh rule are the
      first-fresh candidates. */
  lemma {:induction false} ExtractionsFollowFirstFresh(events: seq<Event>, cs: seq<Invocation>, existing: set<string>, n: nat)
    requires |events| == |cs| && n <= |cs|
    requires forall i :: 0 <= i < |cs| ==>
      (events[i] == SkippedExisting(cs[i].output) || events[i] == Extracted(cs[i]))
    requires forall i :: 0 <= i < |cs| ==> (events[i] == Extracted(cs[i]) <==> FirstFreshAt(cs, existing, i))
    ensures Extractions(events[..n]) == FirstFreshPrefix(cs, existing, n)
    decreases n
  {
    if n > 0 {
      ExtractionsFollowFirstFresh(events, cs, existing, n - 1);
      assert events[..n] == events[..n - 1] + [events[n - 1]];
      ExtractionsAppend(events[..n - 1], [events[n - 1]]);
      assert Extractions([events[n - 1]]) == if events[n - 1].Extracted? then [events[n - 1].inv] else [];
    } else {
      assert events[..0] == [];
    }
  }

  /** The run over recordings extracts what one per-track loop over all their
      candidate invocations would: recording boundaries play no part, since
      the set of existing files is carried from one recording to the next. */
  lemma {:induction false} RunIsOneTrackLoop(recs: seq<Recording>, existing: set<string>)
    ensures Extractions(Run(recs, existing).events) == Extractions(RunTracks(Candidates(recs), existing).events)
    ensures Run(recs, existing).existing == RunTracks(Candidates(recs), existing).existing
    decreases |recs|
  {
    if recs != [] {
      var ci := RecordingInvocations(recs[0]);
      var first := RunRecording(recs[0], existing);
      var ra := RunTracks(ci, existing);
      assert Extractions(first.events) == Extractions(ra.events) && first.existing == ra.existing by {
        if ci == [] {
          assert Extractions(first.events) == [];
        }
      }
      RunIsOneTrackLoop(recs[1..], first.existing);
      RunTracksAppend(ci, Candidates(recs[1..]), existing);
      var rest := Run(recs[1..], first.existing);
      var rb := RunTracks(Candidates(recs[1..]), ra.existing);
      ExtractionsAppend(first.events, rest.events);
      ExtractionsAppend(ra.events, rb.events);
    }
  }

  /** What the run extracts, in order, is exactly the candidates whose target
      did not exist at the start and was not the target of an earlier
      candidate. Two chapters whose titles sanitize alike yield one extraction. */
  lemma RunExtractsFirstFresh(recs: seq<Recording>, existing: set<string>)
    ensures var cs := Candidates(recs);
      Extractions(Run(recs, existing).events) == FirstFreshPrefix(cs, existing, |cs|)
  {
    var cs := Candidates(recs);
    var r := RunTracks(cs, existing);
    RunIsOneTrackLoop(recs, existing);
    RunTracksEvents(cs, existing);
    ExtractionsFollowFirstFresh(r.events, cs, existing, |cs|);
    assert r.events[..|cs|] == r.events;
  }

  /** After the run, the files that exist are those that existed before plus
      the target of every candidate, and nothing else. */
  lemma RunCreatesAllTargets(recs: seq<Recording>, existing: set<string>)
    ensures Run(recs, existing).existing == existing + Outputs(Candidates(recs))
  {
    var cs := Candidates(recs);
    var r := RunTracks(cs, existing);
    RunIsOneTrackLoop(recs, existing);
    RunTracksEvents(cs, existing);
    RunTracksThreaded(cs, existing);
    var x := Extractions(r.events);
    forall k | 0 <= k < |x| ensures x[k].output in Outputs(cs) {
      ExtractedAreCandidates(r.events, cs, k);
    }
    assert Outputs(x) <= Outputs(cs);
    assert forall k :: 0 <= k < |cs| ==> cs[k].output in r.existing;
  }

  /** Each extraction of a per-track loop is one of its candidates. */
  lemma {:induction false} ExtractedAreCandidates(events: seq<Event>, cs: seq<Invocation>, k: nat)
    requires |events| == |cs|
    requires forall i :: 0 <= i < |cs| ==>
      (events[i] == SkippedExisting(cs[i].output) || events[i] == Extracted(cs[i]))
    requires k < |Extractions(events)|
    ensures Extractions(events)[k].output in Outputs(cs)
    decreases |events|
  {
    var h := if events[0].Extracted? then [events[0].inv] else [];
    if k < |h| {
      assert Extractions(events)[k] == cs[0];
    } else {
      assert Extractions(events)[k] == Extractions(events[1..])[k - |h|];
      ExtractedAreCandidates(events[1..], cs[1..], k - |h|);
      var o := Extractions(events)[k].output;
      var j :| 0 <= j < |cs[1..]| && cs[1..][j].output == o;
      assert cs[j + 1].output == o;
    }
  }

  /** A recording whose descriptor did not parse, or whose audio file is
      missing, is reported and skipped: it asks for no extraction and the run
      goes on with the same set of existing files. */
  lemma UnusableRecordingSkipped(rec: Recording, rest: seq<Recording>, existing: set<string>)
    requires rec.descriptor.None? || !rec.audioExists
    ensures var s := Run([rec] + rest, existing);
      && |s.events| >= 1
      && s.events[0] == (if rec.descriptor.None? then InvalidDescriptor(JsonPath(rec.name)) else MissingAudio(rec.name))
      && s.events[1..] == Run(rest, existing).events
      && s.existing == Run(rest, existing).existing
      && Extractions(s.events) == Extractions(Run(rest, existing).events)
  {
    assert ([rec] + rest)[1..] == rest;
  }

  /** The audio path of a recording is never mistaken for an option. */
  lemma AudioPathIsPathArg(name: string)
    ensures IsPathArg(AudioPath(name))
  {
    var b := name + ".opus";
    if b[0] != '/' {
      assert Join(".", b) == "./" + b;
    }
  }

  /** The command of one planned track of a recording. */
  lemma PlanCommand(name: string, plan: TrackPlan)
    ensures var a := Argv(PlanInvocation(AudioPath(name), plan));
      && ("-ss" in a <==> plan.IsChaptered())
      && ("-to" in a <==> plan.IsChaptered())
      && a[|a| - 5] == "track=" + Decimal.IntToString(plan.track)
  {
    var inv := PlanInvocation(AudioPath(name), plan);
    AudioPathIsPathArg(name);
    TargetFileShape(plan.album, plan.title);
    assert inv.output[..7] == "output/";
    assert inv.output[0] == inv.output[..7][0] == 'o';
    SeekOnlyInChapterMode(inv);
  }

  /** The command of track `k` of a usable recording. */
  lemma TrackCommand(d: Descriptor, name: string, k: nat)
    requires k < |PlanTracks(d)|
    ensures var inv := PlanInvocation(AudioPath(name), PlanTracks(d)[k]);
      var a := Argv(inv);
      && ("-ss" in a <==> d.HasChapters())
      && ("-to" in a <==> d.HasChapters())
      && (d.HasChapters() ==> a[|a| - 5] == "track=" + Decimal.IntToString(k + 1))
  {
    var plan := PlanTracks(d)[k];
    assert plan.IsChaptered() <==> d.HasChapters();
    assert d.HasChapters() ==> plan.track == k + 1;
    PlanCommand(name, plan);
  }

  /** Every command a recording asks for starts with `ffmpeg -y`, copies the
      stream, ends with its target, has `-ss`/`-to` exactly when the recording
      has chapters, and in chapter mode tags `track=` with the 1-based chapter
      index. */
  lemma RecordingCommands(rec: Recording)
    ensures var invs := RecordingInvocations(rec);
      forall k :: 0 <= k < |invs| ==>
        var a := Argv(invs[k]);
        var chaptered := rec.descriptor.Some? && rec.descriptor.value.HasChapters();
        && a[..2] == ["ffmpeg", "-y"]
        && a[|a| - 16..|a| - 14] == ["-c", "copy"]
        && a[|a| - 1] == invs[k].output
        && ("-ss" in a <==> chaptered)
        && ("-to" in a <==> chaptered)
        && (chaptered ==> a[|a| - 5] == "track=" + Decimal.IntToString(k + 1))
  {
    var invs := RecordingInvocations(rec);
    if invs != [] {
      var d := rec.descriptor.value;
      forall k | 0 <= k < |invs|
        ensures var a := Argv(invs[k]);
          && ("-ss" in a <==> d.HasChapters())
          && ("-to" in a <==> d.HasChapters())
          && (d.HasChapters() ==> a[|a| - 5] == "track=" + Decimal.IntToString(k + 1))
      {
        TrackCommand(d, rec.name, k);
      }
    }
  }
}

=== FILE: paths.dfy ===
/** Where a track is written: `output/<sanitized album>/<sanitized title>.opus`,
    built with `os.path.join` (python_version/process.py:9-10, 53-60, 109-114). */
module Paths {
  import opened Wrappers
  import opened Sanitizer

  /** The fixed output root and container extension (python_version/process.py:9-10). */
  const OutputDir: string := "output"
  const OutputFormat: string := "opus"

  /** An absolute path: one that starts at the root. */
  predicate IsAbsolute(b: string) {
    |b| >= 1 && b[0] == '/'
  }

  /** POSIX `os.path.join(a, b)`: an absolute `b` replaces `a`; otherwise a
      separator is put between them unless `a` is empty or already ends in one. */
  function Join(a: string, b: string): (r: string)
    ensures IsAbsolute(b) ==> r == b
    ensures !IsAbsolute(b) ==> |a| + |b| <= |r| <= |a| + |b| + 1
    ensures !IsAbsolute(b) && (a == [] || a[|a| - 1] == '/') ==> |r| == |a| + |b|
  {
    if IsAbsolute(b) then b
    else if a == [] || a[|a| - 1] == '/' then a + b
    else a + "/" + b
  }

  /** Joining a relative `b` onto `a` keeps `a` in front and `b` at the end,
      with exactly one `/` at the boundary when `a` is not empty. */
  lemma JoinSeparates(a: string, b: string)
    requires !IsAbsolute(b)
    ensures var r := Join(a, b);
      && r[..|a|] == a
      && r[|r| - |b|..] == b
      && (a != [] ==> |r| > |b| && r[|r| - |b| - 1] == '/')
  {
    var r := Join(a, b);
    if a == [] || a[|a| - 1] == '/' {
      assert r == a + b;
    } else {
      assert r == a + "/" + b;
    }
  }

  /** The album directory, `os.path.join(output_dir, safe_album)`. */
  function TargetDir(album: string): string {
    Join(OutputDir, Sanitize(album))
  }

  /** The file name of a track, `f"{safe_title}.{output_format}"`. */
  function TargetName(title: string): string {
    Sanitize(title) + "." + OutputFormat
  }

  /** The output file of a track with the given album and title: the root,
      the sanitized album and title joined by `/`, and the extension. */
  function TargetFile(album: string, title: string): (p: string)
    ensures p == "output/" + JoinSegments(Sanitize(album), Sanitize(title)) + ".opus"
  {
    JoinUnderRoot(Sanitize(album), Sanitize(title));
    Join(TargetDir(album), TargetName(title))
  }

  /** The index of the first `/` in `s`, if there is one. */
  function FindSlash(s: string): (r: Option<nat>)
    ensures r.None? <==> '/' !in s
    ensures r.Some? ==> r.value < |s| && s[r.value] == '/' && '/' !in s[..r.value]
    decreases |s|
  {
    if s == [] then None
    else if s[0] == '/' then Some(0)
    else match FindSlash(s[1..])
      case None => None
      case Some(k) =>
        assert s[..k + 1] == [s[0]] + s[1..][..k];
        Some(k + 1)
  }

  /** The part of an output path between the root and the extension. */
  function JoinSegments(album: string, title: string): string {
    if album == [] then title else album + "/" + title
  }

  /** Splits the part between root and extension at its first `/`; with no
      `/`, the album segment was empty. */
  function SplitSegments(mid: string): (string, string) {
    match FindSlash(mid)
    case None => ("", mid)
    case Some(k) => (mid[..k], mid[k + 1..])
  }

  /** Reads an output path back into its album and title segments. */
  function SplitTarget(p: string): Option<(string, string)> {
    if |p| >= 12 && p[..7] == "output/" && p[|p| - 5..] == ".opus" then
      Some(SplitSegments(p[7..|p| - 5]))
    else None
  }

  /** The first `/` after a slash-free segment is the separator. */
  lemma {:induction false} FindSlashAfterSegment(a: string, t: string)
    requires '/' !in a
    ensures FindSlash(a + "/" + t) == Some(|a|)
    decreases |a|
  {
    if a != [] {
      assert a[0] in a;
      assert '/' !in a[1..] by {
        forall c | c in a[1..] ensures c != '/' { assert c in a; }
      }
      FindSlashAfterSegment(a[1..], t);
      assert (a + "/" + t)[1..] == a[1..] + "/" + t;
    }
  }

  /** Slash-free segments are recovered from their join. */
  lemma SplitJoinSegments(a: string, t: string)
    requires '/' !in a && '/' !in t
    ensures SplitSegments(JoinSegments(a, t)) == (a, t)
  {
    if a != [] {
      var mid := a + "/" + t;
      FindSlashAfterSegment(a, t);
      assert mid[..|a|] == a;
      assert mid[|a| + 1..] == t;
    }
  }

  /** The root and the extension come off again. */
  lemma SplitTargetOfRootAndExt(mid: string)
    ensures SplitTarget("output/" + mid + ".opus") == Some(SplitSegments(mid))
  {
    var p := "output/" + mid + ".opus";
    assert p[..7] == "output/";
    assert p[|p| - 5..] == ".opus";
    assert p[7..|p| - 5] == mid;
  }

  /** The file name of a slash-free title is relative. */
  lemma NameIsRelative(t: string)
    requires '/' !in t
    ensures var name := t + "." + OutputFormat; name == t + ".opus" && name[0] != '/'
  {
    var name := t + "." + OutputFormat;
    if t == [] { assert name == ".opus"; } else { assert name[0] == t[0]; assert t[0] in t; }
  }

  /** The album directory of a non-empty slash-free segment does not end in `/`. */
  lemma DirOfSegment(a: string)
    requires '/' !in a && a != []
    ensures var dir := Join(OutputDir, a); dir == "output/" + a && dir[|dir| - 1] != '/'
  {
    assert a[0] in a;
    assert a[|a| - 1] in a;
  }

  /** Joining the root, a slash-free album segment and the file name of a title. */
  lemma JoinUnderRoot(a: string, t: string)
    requires '/' !in a && '/' !in t
    ensures Join(Join(OutputDir, a), t + "." + OutputFormat) == "output/" + JoinSegments(a, t) + ".opus"
  {
    var name := t + "." + OutputFormat;
    NameIsRelative(t);
    if a != [] {
      DirOfSegment(a);
      assert "output/" + a + "/" + (t + ".opus") == "output/" + (a + "/" + t) + ".opus";
    } else {
      assert Join(OutputDir, a) == "output/";
      assert "output/" + (t + ".opus") == "output/" + t + ".opus";
    }
  }

  /** Splitting the output path of a track gives back the sanitized album and
      title, each sanitized on its own. */
  lemma SplitTargetFile(album: string, title: string)
    ensures SplitTarget(TargetFile(album, title)) == Some((Sanitize(album), Sanitize(title)))
  {
    SplitTargetOfRootAndExt(JoinSegments(Sanitize(album), Sanitize(title)));
    SplitJoinSegments(Sanitize(album), Sanitize(title));
  }

  /** Two tracks share an output file exactly when their sanitized albums and
      their sanitized titles are equal. */
  lemma TargetFileCollides(album1: string, title1: string, album2: string, title2: string)
    ensures TargetFile(album1, title1) == TargetFile(album2, title2)
        <==> Sanitize(album1) == Sanitize(album2) && Sanitize(title1) == Sanitize(title2)
  {
    SplitTargetFile(album1, title1);
    SplitTargetFile(album2, title2);
  }

  /** Every output path lies under `output/` and carries the `.opus` extension. */
  lemma TargetFileShape(album: string, title: string)
    ensures var p := TargetFile(album, title);
      |p| >= 12 && p[..7] == "output/" && p[|p| - 5..] == ".opus"
  {
  }
}

=== FILE: planner.dfy ===
/** The track planner: how many output tracks a recording yields and what
    each one's time range and tags are (python_version/process.py:40-51, 101-107). */
module Planner {
  import opened Wrappers
  import opened Descriptor

  const UnknownAlbum: string := "Unknown Album"
  const UnknownArtist: string := "Unknown Artist"
  const UnknownTitle: string := "Unknown Title"

  /** A chapter's whole-second range, `-ss start` to `-to end`. No order between
      the two is required. */
  datatype Range = Range(startSec: int, endSec: int)

  /** One output track. `range` is present exactly for a chapter-mode track. */
  datatype TrackPlan = TrackPlan(
    range: Option<Range>,
    album: string,
    artist: string,
    title: string,
    track: int)
  {
    predicate IsChaptered() {
      range.Some?
    }
  }

  /** A chapter time floored to whole seconds, 0 when the key is absent
      (python_version/process.py:45-47). Times are finite reals here: a NaN or
      infinite time makes the script raise instead. */
  function Seconds(t: Option<real>): (n: int)
    ensures n as real <= t.GetOr(0.0) < n as real + 1.0
  {
    t.GetOr(0.0).Floor
  }

  /** The plan of the chapter numbered `track` (python_version/process.py:45-51). */
  function ChapterPlan(d: Descriptor, c: Chapter, track: int): (r: TrackPlan)
    ensures r.IsChaptered() && r.track == track
    ensures r.range.value.startSec as real <= c.startTime.GetOr(0.0) < r.range.value.startSec as real + 1.0
    ensures r.range.value.endSec as real <= c.endTime.GetOr(0.0) < r.range.value.endSec as real + 1.0
    ensures r.album == (if d.title.Some? then d.title.value else UnknownAlbum)
    ensures r.artist == (if d.uploader.Some? then d.uploader.value else UnknownArtist)
    ensures r.title == (if c.title.Some? then c.title.value else UnknownTitle)
  {
    TrackPlan(
      Some(Range(Seconds(c.startTime), Seconds(c.endTime))),
      d.title.GetOr(UnknownAlbum),
      d.uploader.GetOr(UnknownArtist),
      c.title.GetOr(UnknownTitle),
      track)
  }

  /** The `enumerate` loop over the chapters, numbering them from `first`. */
  function ChapterPlans(d: Descriptor, chapters: seq<Chapter>, first: int): (r: seq<TrackPlan>)
    ensures |r| == |chapters|
    ensures forall i :: 0 <= i < |chapters| ==> r[i] == ChapterPlan(d, chapters[i], first + i)
    decreases |chapters|
  {
    if chapters == [] then []
    else [ChapterPlan(d, chapters[0], first)] + ChapterPlans(d, chapters[1..], first + 1)
  }

  /** The single track of a recording without chapters (python_version/process.py:103-107). */
  function SinglePlan(d: Descriptor): (r: TrackPlan)
    ensures !r.IsChaptered()
    ensures r.album == (if d.playlistTitle.Some? then d.playlistTitle.value
                        else if d.title.Some? then d.title.value else UnknownAlbum)
    ensures r.artist == (if d.uploader.Some? then d.uploader.value else UnknownArtist)
    ensures r.title == (if d.title.Some? then d.title.value else UnknownTitle)
    ensures r.track == (if d.playlistIndex.Some? then d.playlistIndex.value else 1)
  {
    TrackPlan(
      None,
      d.playlistTitle.GetOr(d.title.GetOr(UnknownAlbum)),
      d.uploader.GetOr(UnknownArtist),
      d.title.GetOr(UnknownTitle),
      d.playlistIndex.GetOr(1))
  }

  /** All tracks of a recording, in the order they are processed. In chapter
      mode track `i` is numbered `i + 1`, so the numbers are distinct and run
      through `1..N`: chapters with equal titles are never merged or dropped. */
  function PlanTracks(d: Descriptor): (r: seq<TrackPlan>)
    ensures d.HasChapters() ==> |r| == |d.chapters.value|
    ensures d.HasChapters() ==> forall i :: 0 <= i < |r| ==>
      var c := d.chapters.value[i];
      && r[i].IsChaptered()
      && r[i].track == i + 1
      && r[i].range.value.startSec == c.startTime.GetOr(0.0).Floor
      && r[i].range.value.endSec == c.endTime.GetOr(0.0).Floor
      && r[i].album == (if d.title.Some? then d.title.value else UnknownAlbum)
      && r[i].artist == (if d.uploader.Some? then d.uploader.value else UnknownArtist)
      && r[i].title == (if c.title.Some? then c.title.value else UnknownTitle)
    ensures !d.HasChapters() ==> |r| == 1 && !r[0].IsChaptered()
    ensures !d.HasChapters() ==>
      && r[0].album == (if d.playlistTitle.Some? then d.playlistTitle.value
                        else if d.title.Some? then d.title.value else UnknownAlbum)
      && r[0].artist == (if d.uploader.Some? then d.uploader.value else UnknownArtist)
      && r[0].title == (if d.title.Some? then d.title.value else UnknownTitle)
      && r[0].track == (if d.playlistIndex.Some? then d.playlistIndex.value else 1)
  {
    if d.HasChapters() then ChapterPlans(d, d.chapters.value, 1) else [SinglePlan(d)]
  }

  /** Times are floored, not truncated or rounded: 12.9 s starts at 12 and
      -0.5 s at -1. */
  lemma SecondsFloors()
    ensures Seconds(Some(12.9)) == 12
    ensures Seconds(Some(-0.5)) == -1
    ensures Seconds(None) == 0
  {
  }
}

=== FILE: sanitizer.dfy ===
/** The name sanitizer: maps free-text metadata to a path segment by replacing
    the characters `\ / : " * ? < > |` with `_` and then stripping surrounding
    whitespace (python_version/process.py:13-14). */
module Sanitizer {

  /** The characters the sanitizer's regular expression `[\\/:"*?<>|]` matches. */
  predicate IsForbidden(c: char) {
    c == '\\' || c == '/' || c == ':' || c == '\"' || c == '*'
    || c == '?' || c == '<' || c == '>' || c == '|'
  }

  /** The characters Python's argument-less `str.strip()` removes: those for
      which `str.isspace()` holds. */
  predicate IsSpace(c: char) {
    var n := c as int;
    (0x09 <= n <= 0x0D) || (0x1C <= n <= 0x20) || n == 0x85 || n == 0xA0
    || n == 0x1680 || (0x2000 <= n <= 0x200A) || n == 0x2028 || n == 0x2029
    || n == 0x202F || n == 0x205F || n == 0x3000
  }

  /** No character of `s` is one the substitution replaces. */
  predicate HasNoForbidden(s: string) {
    forall k :: 0 <= k < |s| ==> !IsForbidden(s[k])
  }

  /** One character of the regex substitution. */
  function ReplaceChar(c: char): char {
    if IsForbidden(c) then '_' else c
  }

  /** The substitution `re.sub(r'[\\/:"*?<>|]', "_", s)`: a one-for-one rewrite
      that keeps the length and every permitted character in place. */
  function ReplaceForbidden(s: string): (r: string)
    ensures |r| == |s|
    ensures forall i :: 0 <= i < |s| ==> r[i] == (if IsForbidden(s[i]) then '_' else s[i])
    ensures HasNoForbidden(r)
    decreases |s|
  {
    if s == [] then [] else [ReplaceChar(s[0])] + ReplaceForbidden(s[1..])
  }

  /** The first position at or after `i` that is not whitespace (or `|s|`):
      where `s.lstrip()` starts when `i` is 0. */
  function TrimStart(s: string, i: nat): (n: nat)
    requires i <= |s|
    ensures i <= n <= |s|
    ensures forall k :: i <= k < n ==> IsSpace(s[k])
    ensures n < |s| ==> !IsSpace(s[n])
    decreases |s| - i
  {
    if i < |s| && IsSpace(s[i]) then TrimStart(s, i + 1) else i
  }

  /** The end of `s[lo..hi]` once its trailing whitespace is dropped: where
      `rstrip` cuts. */
  function TrimEnd(s: string, lo: nat, hi: nat): (n: nat)
    requires lo <= hi <= |s|
    ensures lo <= n <= hi
    ensures forall k :: n <= k < hi ==> IsSpace(s[k])
    ensures lo < n ==> !IsSpace(s[n - 1])
    decreases hi
  {
    if lo < hi && IsSpace(s[hi - 1]) then TrimEnd(s, lo, hi - 1) else hi
  }

  /** `s` neither starts nor ends with whitespace. */
  predicate IsTrimmed(s: string) {
    s == [] || (!IsSpace(s[0]) && !IsSpace(s[|s| - 1]))
  }

  /** `r` is the slice `s[i..j]`, everything cut off is whitespace, and what is
      left is trimmed. */
  ghost predicate IsTrimAt(r: string, s: string, i: int, j: int) {
    0 <= i <= j <= |s| && r == s[i..j] && IsTrimmed(r)
    && (forall k :: 0 <= k < i ==> IsSpace(s[k])) && (forall k :: j <= k < |s| ==> IsSpace(s[k]))
  }

  /** `r` is `s` with an all-whitespace prefix and suffix cut off, and what is
      left neither starts nor ends with whitespace. */
  ghost predicate IsTrimOf(r: string, s: string) {
    exists i, j :: IsTrimAt(r, s, i, j)
  }

  /** A slice whose first and last characters are not whitespace is trimmed. */
  lemma SliceTrimmed(s: string, i: nat, j: nat)
    requires i <= j <= |s|
    requires i < j ==> !IsSpace(s[i]) && !IsSpace(s[j - 1])
    ensures IsTrimmed(s[i..j])
  {
    var r := s[i..j];
    if r != [] {
      assert r[0] == s[i];
      assert r[|r| - 1] == s[j - 1];
    }
  }

  /** Cutting the leading and then the trailing whitespace is a trim. */
  lemma StripCutsIsTrim(s: string)
    ensures var i := TrimStart(s, 0);
      var j := TrimEnd(s, i, |s|);
      IsTrimAt(s[i..j], s, i, j)
  {
    var i := TrimStart(s, 0);
    var j := TrimEnd(s, i, |s|);
    SliceTrimmed(s, i, j);
  }

  /** `s.strip()`, that is `s.lstrip().rstrip()`: the trim of `s`. */
  function Strip(s: string): (r: string)
    ensures IsTrimOf(r, s)
    ensures IsTrimmed(r)
  {
    StripCutsIsTrim(s);
    var i := TrimStart(s, 0);
    s[i..TrimEnd(s, i, |s|)]
  }

  /** A trim keeps only characters of the string it cuts. */
  lemma StripKeepsNoForbidden(s: string)
    requires HasNoForbidden(s)
    ensures HasNoForbidden(Strip(s))
  {
    var r := Strip(s);
    var i, j :| IsTrimAt(r, s, i, j);
    forall k | 0 <= k < |r| ensures !IsForbidden(r[k]) {
      assert r[k] == s[i + k];
    }
  }

  /** `sanitize_metadata(text)`: a name with no forbidden character and no
      whitespace at either end. */
  function Sanitize(s: string): (r: string)
    ensures HasNoForbidden(r)
    ensures IsTrimmed(r)
  {
    StripKeepsNoForbidden(ReplaceForbidden(s));
    Strip(ReplaceForbidden(s))
  }

  /** The sanitized name is the trim of the one-for-one replacement of the text. */
  lemma SanitizeIsTrimOfReplacement(s: string)
    ensures |ReplaceForbidden(s)| == |s|
    ensures forall i :: 0 <= i < |s| ==> ReplaceForbidden(s)[i] == (if IsForbidden(s[i]) then '_' else s[i])
    ensures IsTrimOf(Sanitize(s), ReplaceForbidden(s))
  {
  }

  /** A non-empty trim must start exactly at the first non-whitespace character. */
  lemma TrimStartsAtFirstNonSpace(r: string, s: string, i: int, j: int, i': int, j': int)
    requires IsTrimAt(r, s, i, j) && r != []
    requires 0 <= i' <= j' <= |s| && (forall k :: 0 <= k < i' ==> IsSpace(s[k])) && i' < j' && !IsSpace(s[i'])
    ensures i == i'
  {
  }

  /** A non-empty trim must end exactly after the last non-whitespace character. */
  lemma TrimEndsAtLastNonSpace(r: string, s: string, i: int, j: int, i': int, j': int)
    requires IsTrimAt(r, s, i, j) && r != []
    requires 0 <= i' <= j' <= |s| && (forall k :: j' <= k < |s| ==> IsSpace(s[k])) && i' < j' && !IsSpace(s[j' - 1])
    ensures j == j'
  {
  }

  /** A trim is unique: the cut points are forced, since the kept part starts
      and ends with a non-whitespace character (or is empty). */
  lemma TrimIsUnique(r1: string, r2: string, s: string)
    requires IsTrimOf(r1, s) && IsTrimOf(r2, s)
    ensures r1 == r2
  {
    var i1, j1 :| IsTrimAt(r1, s, i1, j1);
    var i2, j2 :| IsTrimAt(r2, s, i2, j2);
    if r1 != [] && r2 != [] {
      TrimStartsAtFirstNonSpace(r1, s, i1, j1, i2, j2);
      TrimEndsAtLastNonSpace(r1, s, i1, j1, i2, j2);
    }
  }

  /** A string with no forbidden character is left alone by the substitution. */
  lemma ReplaceForbiddenKeepsClean(s: string)
    requires HasNoForbidden(s)
    ensures ReplaceForbidden(s) == s
  {
    var r := ReplaceForbidden(s);
    assert forall i :: 0 <= i < |s| ==> r[i] == s[i];
  }

  /** A string that is already its own trim is left alone by `strip`. */
  lemma StripKeepsTrimmed(s: string)
    requires IsTrimmed(s)
    ensures Strip(s) == s
  {
    assert IsTrimAt(s, s, 0, |s|) by { assert s == s[0..|s|]; }
    TrimIsUnique(Strip(s), s, s);
  }

  /** Sanitizing twice gives the same name as sanitizing once. */
  lemma SanitizeIdempotent(s: string)
    ensures Sanitize(Sanitize(s)) == Sanitize(s)
  {
    var t := Sanitize(s);
    ReplaceForbiddenKeepsClean(t);
    StripKeepsTrimmed(t);
  }

  /** A name that is already safe and trimmed is its own sanitization. */
  lemma SanitizeKeepsSafeName(s: string)
    requires HasNoForbidden(s)
    requires IsTrimmed(s)
    ensures Sanitize(s) == s
  {
    ReplaceForbiddenKeepsClean(s);
    StripKeepsTrimmed(s);
  }
}

=== FILE: scenarios.dfy ===
/** Whole runs on concrete recordings, worked out end to end: the loop's
    observable behaviour on small inputs (python_version/process.py:20-147). */
module Scenarios {
  import opened Wrappers
  import opened Sanitizer
  import opened Decimal
  import opened Paths
  import opened Descriptor
  import opened Planner
  import opened Command
  import opened Driver

  /** The plain names used below sanitize to themselves. */
  lemma SafePod() ensures Sanitize("Pod") == "Pod" { SanitizeKeepsSafeName("Pod"); }
  lemma SafeA() ensures Sanitize("A") == "A" { SanitizeKeepsSafeName("A"); }
  lemma SafeB() ensures Sanitize("B") == "B" { SanitizeKeepsSafeName("B"); }
  lemma SafeSolo() ensures Sanitize("Solo") == "Solo" { SanitizeKeepsSafeName("Solo"); }

  /** Trailing whitespace does not reach the path: "A " is sanitized to "A". */
  lemma PaddedNameStripped()
    ensures Sanitize("A ") == "A"
  {
    ReplaceForbiddenKeepsClean("A ");
    assert IsTrimAt("A", "A ", 0, 1);
    TrimIsUnique(Strip("A "), "A", "A ");
  }

  /** A track whose album and title sanitize to themselves is written to
      `output/<album>/<title>.opus`. */
  lemma SafeTarget(album: string, title: string)
    requires Sanitize(album) == album && Sanitize(title) == title
    ensures TargetFile(album, title) == "output/" + JoinSegments(album, title) + ".opus"
  {
  }

  /** The output paths below, spelled out. */
  lemma PathOfA()
    ensures "output/" + JoinSegments("Pod", "A") + ".opus" == "output/Pod/A.opus"
  {
  }

  lemma PathOfB()
    ensures "output/" + JoinSegments("Pod", "B") + ".opus" == "output/Pod/B.opus"
  {
  }

  lemma PathOfSolo()
    ensures "output/" + JoinSegments("Solo", "Solo") + ".opus" == "output/Solo/Solo.opus"
  {
  }

  lemma TargetOfA()
    ensures TargetFile("Pod", "A") == "output/Pod/A.opus"
  {
    SafePod();
    SafeA();
    SafeTarget("Pod", "A");
    PathOfA();
  }

  lemma TargetOfB()
    ensures TargetFile("Pod", "B") == "output/Pod/B.opus"
  {
    SafePod();
    SafeB();
    SafeTarget("Pod", "B");
    PathOfB();
  }

  lemma TargetOfSolo()
    ensures TargetFile("Solo", "Solo") == "output/Solo/Solo.opus"
  {
    SafeSolo();
    SafeTarget("Solo", "Solo");
    PathOfSolo();
  }

  /** A padded chapter title writes the same file as the bare one. */
  lemma PaddedTarget()
    ensures TargetFile("Pod", "A ") == "output/Pod/A.opus"
  {
    PaddedNameStripped();
    TargetFileCollides("Pod", "A ", "Pod", "A");
    TargetOfA();
  }

  // ---------------------------------------------------------------------
  // A chaptered recording "pod": album "Pod" by "X", chapters "A" (0-10 s)
  // and "B" (10-20 s).

  const PodChapters: seq<Chapter> :=
    [Chapter(Some(0.0), Some(10.0), Some("A")), Chapter(Some(10.0), Some(20.0), Some("B"))]
  const Pod: Descriptor := Descriptor(Some("Pod"), Some("X"), None, None, Some(PodChapters))
  const PlanA: TrackPlan := TrackPlan(Some(Range(0, 10)), "Pod", "X", "A", 1)
  const PlanB: TrackPlan := TrackPlan(Some(Range(10, 20)), "Pod", "X", "B", 2)
  const InvA: Invocation := Invocation("./pod.opus", Some(Range(0, 10)), Tags("A", "Pod", "X", 1), "output/Pod/A.opus")
  const InvB: Invocation := Invocation("./pod.opus", Some(Range(10, 20)), Tags("B", "Pod", "X", 2), "output/Pod/B.opus")

  /** Two chapters give two tracks numbered 1 and 2 with whole-second ranges. */
  lemma PodPlans()
    ensures PlanTracks(Pod) == [PlanA, PlanB]
  {
    assert Pod.HasChapters();
  }

  lemma InvocationOfA()
    ensures PlanInvocation("./pod.opus", PlanA) == InvA
  {
    TargetOfA();
  }

  lemma InvocationOfB()
    ensures PlanInvocation("./pod.opus", PlanB) == InvB
  {
    TargetOfB();
  }

  /** A two-element sequence is the display of its two elements. */
  lemma PairOf(r: seq<Invocation>, i: Invocation, j: Invocation)
    requires |r| == 2 && r[0] == i && r[1] == j
    ensures r == [i, j]
  {
  }

  /** The requests for two plans are the request for each. */
  lemma InvocationsOfTwo(audio: string, p: TrackPlan, q: TrackPlan)
    ensures PlanInvocations(audio, [p, q]) == [PlanInvocation(audio, p), PlanInvocation(audio, q)]
  {
    PairOf(PlanInvocations(audio, [p, q]), PlanInvocation(audio, p), PlanInvocation(audio, q));
  }

  lemma PodInvocations()
    ensures PlanInvocations("./pod.opus", PlanTracks(Pod)) == [InvA, InvB]
  {
    PodPlans();
    InvocationOfA();
    InvocationOfB();
    InvocationsOfTwo("./pod.opus", PlanA, PlanB);
  }

  /** The command for the first chapter, argument by argument. */
  lemma FirstChapterCommand()
    ensures Argv(InvA) == [
      "ffmpeg", "-y", "-ss", "0", "-i", "./pod.opus", "-to", "10",
      "-c", "copy", "-id3v2_version", "3",
      "-metadata", "title=A", "-metadata", "album=Pod", "-metadata", "artist=X", "-metadata", "track=1",
      "-loglevel", "quiet", "-nostats", "output/Pod/A.opus"]
  {
    assert IntToString(0) == "0" && IntToString(1) == "1";
    assert NatToString(1) == "1";
    assert IntToString(10) == "10";
    assert "title=" + "A" == "title=A" && "album=" + "Pod" == "album=Pod";
    assert "artist=" + "X" == "artist=X" && "track=" + "1" == "track=1";
  }

  /** The per-track loop over one request. */
  lemma TracksOfOne(i: Invocation, existing: set<string>)
    ensures RunTracks([i], existing) == Step([TrackEvent(i, existing)], existing + {i.output})
  {
    assert [i][1..] == [];
    assert [TrackEvent(i, existing)] + [] == [TrackEvent(i, existing)];
  }

  /** The per-track loop over two requests: the second is judged against the
      set that already holds the first one's target. */
  lemma TracksOfTwo(i: Invocation, j: Invocation, existing: set<string>)
    ensures RunTracks([i, j], existing)
      == Step([TrackEvent(i, existing), TrackEvent(j, existing + {i.output})], existing + {i.output} + {j.output})
  {
    assert [i, j][1..] == [j];
    TracksOfOne(j, existing + {i.output});
  }

  /** The per-track loop over the two chapters from `existing`, when neither
      file exists there: both are extracted. */
  lemma PodTracksFresh(existing: set<string>)
    requires InvA.output !in existing && InvB.output !in existing
    ensures RunTracks([InvA, InvB], existing)
      == Step([Extracted(InvA), Extracted(InvB)], existing + {InvA.output} + {InvB.output})
  {
    TracksOfTwo(InvA, InvB, existing);
    assert InvB.output !in existing + {InvA.output};
  }

  /** The per-track loop over the two chapters when the first file exists. */
  lemma PodTracksRerun()
    ensures RunTracks([InvA, InvB], {InvA.output})
      == Step([SkippedExisting(InvA.output), Extracted(InvB)], {InvA.output} + {InvA.output} + {InvB.output})
  {
    TracksOfTwo(InvA, InvB, {InvA.output});
    assert InvB.output !in {InvA.output} + {InvA.output};
  }

  /** The audio file of a recording named "pod" or "solo". */
  lemma AudioOfPod()
    ensures AudioPath("pod") == "./pod.opus"
  {
  }

  lemma AudioOfSolo()
    ensures AudioPath("solo") == "./solo.opus"
  {
  }

  /** A run over one usable recording is the per-track loop over its plans. */
  lemma RunOfOne(rec: Recording, d: Descriptor, existing: set<string>)
    requires rec.descriptor == Some(d) && rec.audioExists
    ensures Run([rec], existing) == RunTracks(PlanInvocations(AudioPath(rec.name), PlanTracks(d)), existing)
  {
    var first := RunRecording(rec, existing);
    assert [rec][1..] == [];
    assert Run([], first.existing) == Step([], first.existing);
    assert first.events + [] == first.events;
  }

  const PodRec: Recording := Recording("pod", Some(Pod), true)

  /** Running over "pod" is the per-track loop over its two chapters. */
  lemma PodRun(existing: set<string>)
    ensures Run([PodRec], existing) == RunTracks([InvA, InvB], existing)
  {
    RunOfOne(PodRec, Pod, existing);
    AudioOfPod();
    PodInvocations();
  }

  /** First run: both chapters are extracted, in order. */
  lemma TwoChapters()
    ensures var s := Run([PodRec], {});
      && s.events == [Extracted(InvA), Extracted(InvB)]
      && s.existing == {"output/Pod/A.opus", "output/Pod/B.opus"}
  {
    PodRun({});
    PodTracksFresh({});
  }

  /** A re-run after the first chapter was written skips it and extracts the
      second. */
  lemma RerunSkipsExisting()
    ensures var s := Run([PodRec], {"output/Pod/A.opus"});
      && s.events == [SkippedExisting("output/Pod/A.opus"), Extracted(InvB)]
      && s.existing == {"output/Pod/A.opus", "output/Pod/B.opus"}
  {
    PodRun({"output/Pod/A.opus"});
    PodTracksRerun();
  }

  // ---------------------------------------------------------------------
  // Two chapters whose titles differ only by trailing whitespace.

  const Twins: Descriptor := Descriptor(Some("Pod"), Some("X"), None, None,
    Some([Chapter(Some(0.0), Some(10.0), Some("A")), Chapter(Some(10.0), Some(20.0), Some("A "))]))
  const TwinsRec: Recording := Recording("pod", Some(Twins), true)
  const PlanTwin: TrackPlan := TrackPlan(Some(Range(10, 20)), "Pod", "X", "A ", 2)
  const InvTwin: Invocation := Invocation("./pod.opus", Some(Range(10, 20)), Tags("A ", "Pod", "X", 2), "output/Pod/A.opus")

  lemma TwinPlans()
    ensures PlanTracks(Twins) == [PlanA, PlanTwin]
  {
    assert Twins.HasChapters();
  }

  /** The second chapter keeps its raw title in the tag but shares the first
      chapter's file. */
  lemma InvocationOfTwin()
    ensures PlanInvocation("./pod.opus", PlanTwin) == InvTwin
  {
    PaddedTarget();
  }

  lemma TwinInvocations()
    ensures PlanInvocations("./pod.opus", PlanTracks(Twins)) == [InvA, InvTwin]
  {
    TwinPlans();
    InvocationOfA();
    InvocationOfTwin();
    InvocationsOfTwo("./pod.opus", PlanA, PlanTwin);
  }

  lemma TwinRun(existing: set<string>)
    ensures Run([TwinsRec], existing) == RunTracks([InvA, InvTwin], existing)
  {
    RunOfOne(TwinsRec, Twins, existing);
    AudioOfPod();
    TwinInvocations();
  }

  lemma TwinTracks()
    ensures RunTracks([InvA, InvTwin], {})
      == Step([Extracted(InvA), SkippedExisting(InvA.output)], {} + {InvA.output} + {InvTwin.output})
  {
    TracksOfTwo(InvA, InvTwin, {});
    assert InvTwin.output in {} + {InvA.output};
  }

  /** Only the first of two colliding chapters is extracted; the second is
      reported as existing, and the run writes one file. */
  lemma CollidingChapterTitles()
    ensures var s := Run([TwinsRec], {});
      && s.events == [Extracted(InvA), SkippedExisting("output/Pod/A.opus")]
      && s.existing == {"output/Pod/A.opus"}
  {
    TwinRun({});
    TwinTracks();
  }

  // ---------------------------------------------------------------------
  // A recording without chapters.

  const Solo: Descriptor := Descriptor(Some("Solo"), None, None, None, None)
  const SoloRec: Recording := Recording("solo", Some(Solo), true)
  const PlanSolo: TrackPlan := TrackPlan(None, "Solo", "Unknown Artist", "Solo", 1)
  const InvSolo: Invocation := Invocation("./solo.opus", None, Tags("Solo", "Solo", "Unknown Artist", 1), "output/Solo/Solo.opus")

  /** No chapters, no uploader, no playlist: one track, the title doubling as
      the album, "Unknown Artist", track 1. */
  lemma SoloPlans()
    ensures PlanTracks(Solo) == [PlanSolo]
  {
  }

  /** In single mode, names that sanitize to themselves are tagged as they are. */
  lemma SingleTagsOfSafeNames(audio: string, plan: TrackPlan)
    requires !plan.IsChaptered()
    requires Sanitize(plan.title) == plan.title && Sanitize(plan.album) == plan.album
    ensures PlanInvocation(audio, plan)
      == Invocation(audio, None, Tags(plan.title, plan.album, plan.artist, plan.track), TargetFile(plan.album, plan.title))
  {
  }

  lemma InvocationOfSolo()
    ensures PlanInvocation("./solo.opus", PlanSolo) == InvSolo
  {
    SafeSolo();
    SingleTagsOfSafeNames("./solo.opus", PlanSolo);
    TargetOfSolo();
  }

  lemma SoloInvocations()
    ensures PlanInvocations("./solo.opus", PlanTracks(Solo)) == [InvSolo]
  {
    SoloPlans();
    InvocationOfSolo();
  }

  /** The command for the single track has no `-ss` and no `-to`. */
  lemma SoloCommand()
    ensures Argv(InvSolo) == [
      "ffmpeg", "-y", "-i", "./solo.opus",
      "-c", "copy", "-id3v2_version", "3",
      "-metadata", "title=Solo", "-metadata", "album=Solo", "-metadata", "artist=Unknown Artist", "-metadata", "track=1",
      "-loglevel", "quiet", "-nostats", "output/Solo/Solo.opus"]
  {
    assert IntToString(1) == "1";
    assert "title=" + "Solo" == "title=Solo" && "album=" + "Solo" == "album=Solo";
    assert "artist=" + "Unknown Artist" == "artist=Unknown Artist" && "track=" + "1" == "track=1";
  }

  lemma SoloRunIsTrackLoop(existing: set<string>)
    ensures Run([SoloRec], existing) == RunTracks([InvSolo], existing)
  {
    RunOfOne(SoloRec, Solo, existing);
    AudioOfSolo();
    SoloInvocations();
  }

  lemma SoloTracks()
    ensures RunTracks([InvSolo], {}) == Step([Extracted(InvSolo)], {} + {InvSolo.output})
  {
    TracksOfOne(InvSolo, {});
  }

  /** The recording without chapters is extracted to one file. */
  lemma SoloRun()
    ensures Run([SoloRec], {}) == Step([Extracted(InvSolo)], {"output/Solo/Solo.opus"})
  {
    SoloRunIsTrackLoop({});
    SoloTracks();
  }

  // ---------------------------------------------------------------------
  // Recordings that cannot be processed.

  const Bad: Recording := Recording("bad", None, true)
  const Mute: Recording := Recording("mute", Some(Solo), false)

  /** A skipped recording puts its one event in front of the rest of the run. */
  lemma SkipThenRest(rec: Recording, rest: seq<Recording>, tail: Step)
    requires rec.descriptor.None? || !rec.audioExists
    requires Run(rest, {}) == tail
    ensures Run([rec] + rest, {}) == Step(
      [if rec.descriptor.None? then InvalidDescriptor(JsonPath(rec.name)) else MissingAudio(rec.name)] + tail.events,
      tail.existing)
  {
    UnusableRecordingSkipped(rec, rest, {});
    var s := Run([rec] + rest, {});
    assert s.events == [s.events[0]] + s.events[1..];
  }

  lemma MuteThenSolo()
    ensures Run([Mute] + [SoloRec], {}) == Step([MissingAudio("mute"), Extracted(InvSolo)], {InvSolo.output})
  {
    SoloRun();
    SkipThenRest(Mute, [SoloRec], Step([Extracted(InvSolo)], {InvSolo.output}));
  }

  lemma BadThenRest()
    ensures Run([Bad] + ([Mute] + [SoloRec]), {})
      == Step([InvalidDescriptor(JsonPath("bad"))] + [MissingAudio("mute"), Extracted(InvSolo)], {InvSolo.output})
  {
    MuteThenSolo();
    SkipThenRest(Bad, [Mute] + [SoloRec], Step([MissingAudio("mute"), Extracted(InvSolo)], {InvSolo.output}));
  }

  lemma BadJsonPath()
    ensures JsonPath("bad") == "./bad.info.json"
  {
  }

  /** A missing or invalid-JSON descriptor and a missing audio file are reported, and the
      run goes on to extract the next recording. */
  lemma BadRecordingsAreSkipped()
    ensures var s := Run([Bad] + ([Mute] + [SoloRec]), {});
      && s.events == [InvalidDescriptor("./bad.info.json"), MissingAudio("mute"), Extracted(InvSolo)]
      && s.existing == {"output/Solo/Solo.opus"}
  {
    BadThenRest();
    BadJsonPath();
    assert [InvalidDescriptor("./bad.info.json")] + [MissingAudio("mute"), Extracted(InvSolo)]
      == [InvalidDescriptor("./bad.info.json"), MissingAudio("mute"), Extracted(InvSolo)];
  }
}

=== FILE: wrappers.dfy ===
/** The optional-value datatype used for descriptor fields with defaults and
    for the partial decoders of the model. */
module Wrappers {

  /** A value that may be absent, as a key that may be missing from a JSON object. */
  datatype Option<+T> = None | Some(value: T) {

    /** The held value, or `default` when there is none (Python's `dict.get(key, default)`). */
    function GetOr(default: T): T {
      match this
      case Some(v) => v
      case None => default
    }
  }
}
